=== FILE: README.md ===
# samp-node event bus, modelled in Dafny

samp-node embeds a JavaScript engine in a SA-MP server, whose gamemode runs on
the Pawn virtual machine. Its event bus (`src/events.cpp`) lets either side
talk to the other:
- A script registers a named event with a parameter signature (`registerEvent`).
- Scripts subscribe and unsubscribe listener functions (`on`, `removeListener`).
- Scripts fire the event (`fire`), or Pawn code calls it (`pawn_call_event`).
- In the Pawn case, raw cells are decoded according to the signature. The
  value returned by the last listener that did not throw comes back to Pawn.

The project models this bus as it is written.

- `values.dfy` (`Values`): 32-bit cells and a few shared definitions.
  - The values that cross the boundary: JavaScript arguments, and decoded
    Pawn arguments.
  - The Pawn machine's data segment, as a partial map from address to cell.
    `amx_GetAddr` succeeds exactly on the mapped addresses.
- `listeners.dfy` (`Listeners`): an event's listener list as a value, and
  what `append`, `remove` and the three forms of `remove_listener` do to it.
  - `Keep` is the erase-remove idiom.
  - `Appended` deduplicates by function only.
  - `RemoveEach` is the array form of `remove_listener`.
- `codec.dfy` (`Codec`): the two argument decoders, as specification
  functions (`Decode`, `DecodeLegacy`) and as the loops that compute them
  (`DecodeArgs`, `DecodeLegacyArgs`).
  - `call_from_pawn_native` reads tag `i` from cell
    `i + (array tags before i) + 1`, and reads scalars and array sizes
    through the cell's address.
  - The older `call(AMX*, cell*, cell*)` reads tag `i` from cell `i + 1`,
    and an array tag skips the tag after it.
- `dispatch.dfy` (`Dispatch`): the dispatch loop shared by the three `call`s,
  as a function `Run` of the listener snapshot.
  - Each snapshotted listener is checked against the live list. The loop
    stops at the first live listener when decoding failed.
  - A listener that returns overwrites the result; one that throws is passed
    over.
  - The JavaScript engine is an `Oracle` parameter. It says whether an
    invocation throws or returns an `int32`, and which calls the listener
    makes on this event while it runs: `on(f)`, `removeListener(f)` and
    `removeListener()`.
- `events.dfy` (`Events`): two classes.
  - `Event` has a fixed name and signature and a listener list changed in
    place. Its methods are proved against the functions above.
  - `Registry` is the process-wide map `events`, with the script and Pawn
    entry points. `Event.Valid` is the invariant that no two listeners share
    a function, which `append` keeps.
- `scenario.dfy` (`Scenario`): a client that registers `"onTest"` with
  signature `"i"`, subscribes an echoing listener, and calls the event from
  Pawn. The call returns 42 while the listener is subscribed, and 0 after
  its context calls `removeListener` with the name alone.

Listeners are `(context, function)` pairs of opaque identities, equal when
both parts are equal.

Three points of the code are worth stating outright, because the rest of
the bus suggests otherwise:
- `append` deduplicates by function identity alone (`src/events.cpp:215-219`),
  although listener equality compares the (context, function) pair.
  Subscribing a function that another context already subscribed does nothing.
- Tag `'i'` goes through `static_cast<uint32_t>` into V8's `Integer::New`,
  which takes an `int32_t`. The script therefore sees the same signed value
  as for `'d'` (`Codec.UnsignedTagDecodesAsSigned`).
- `call(args)` runs `delete[] args` inside the listener loop
  (`src/events.cpp:269`), not after it (see "Left out").

## Model

| member | source | states |
|---|---|---|
| Listeners.Keep | src/events.cpp:235-238 | the erase-remove idiom keeps exactly the elements satisfying the predicate, in their original order (a subsequence of the input) |
| Listeners.Without | src/events.cpp:235-238 | `remove(l)` leaves exactly the elements different from `l`, in their order |
| Listeners.WithoutContext | src/events.cpp:136-146 | `removeListener(name)` leaves exactly the listeners of other contexts, in their order |
| Listeners.Appended | src/events.cpp:211-233 | after `append` the function is subscribed, every earlier listener is still there, and the only listener that can be new is (context, function) |
| Listeners.RemoveEach | src/events.cpp:108-123 | the array form leaves exactly the listeners that are not (calling context, a function in the array) |
| Listeners.AppendedKeepsFunctionsUnique | src/events.cpp:211-233 | `append` keeps the invariant that no two listeners share a function |
| Listeners.SubscribeIdempotent | src/events.cpp:215-223 | once a function is subscribed, subscribing it again from any context changes nothing, and afterwards the function is present |
| Listeners.AppendedShape | src/events.cpp:211-233 | `append` keeps every earlier listener in place and grows the list by one exactly when no listener holds the function; the new listener is at the end |
| Listeners.UnsubscribeRemovesAtMostOne | src/events.cpp:126-133 | on a list without duplicates, removing the matching listener removes exactly that one element, or nothing if there is none |
| Listeners.RemoveEachKeepsTheRest | src/events.cpp:108-123 | the array form removes exactly the calling context's listeners whose function is in the array; every other listener stays, in order |
| Codec.CellIndex | src/events.cpp:428-490 | the cell of tag `i` lies beyond `i`, and the tag's cells (two for an array tag) fall within the cells the signature consumes |
| Codec.DecodeTag | src/events.cpp:430-505 | decoding one tag fails exactly for a string or array tag whose address does not resolve |
| Codec.Decode | src/events.cpp:425-507 | the native decoder yields one argument per tag, and fails exactly when some string or array tag's address does not resolve |
| Codec.DecodeArgs | src/events.cpp:425-507 | the loop with the `paramOffset` cursor computes `Decode` |
| Codec.DecodeLegacy | src/events.cpp:300-384 | the older decoder yields one argument per tag, and fails exactly when a string or array tag that is not skipped has an unresolvable address in cell `i + 1` |
| Codec.DecodeLegacyArgs | src/events.cpp:300-384 | the loop whose array tags bump `i` computes `DecodeLegacy` |
| Codec.LegacySkippedParity | src/events.cpp:330-367 | the older decoder's `i++` skips a tag exactly when an odd number of array tags stand right before it |
| Codec.NextTagCell | src/events.cpp:454-490 | the next tag's cell follows one cell after a scalar tag and two after an array tag |
| Codec.ArrayThenIntegerReadsThirdCell | src/events.cpp:454-471 | for signature "ai" the native decoder reads the integer from the third cell, while the older decoder skips the integer tag |
| Codec.DecodersAgreeWithoutArrays | src/events.cpp:306-384 | without array tags both decoders read tag `i` from cell `i + 1` and skip nothing |
| Codec.UnsignedTagDecodesAsSigned | src/events.cpp:491-500 | tag `'i'` decodes to the same value as `'d'` |
| Codec.SdifExample | src/events.cpp:430-505 | signature "sdif" on concrete cells decodes to the string address, 42, 7 and the float's cell |
| Dispatch.ApplyEdit | src/events.cpp:54-148 | one `on` or `removeListener` call a listener makes from its context leaves every listener of another context as it was |
| Dispatch.Edited | src/events.cpp:54-148 | a listener's calls on the event, made from its own context, never add or remove a listener of another context |
| Dispatch.Step | src/events.cpp:411-525 | a listener's turn changes nothing when it is no longer subscribed or the loop has stopped; a live listener's turn stops the loop when decoding failed, and otherwise invokes that listener, keeps the loop going, takes a returned value as the result and leaves other contexts' listeners subscribed; the result changes only to a value that invocation returned |
| Dispatch.Run | src/events.cpp:409-525 | the loop only appends to the invocations, at most one per snapshotted listener, and changes nothing once stopped |
| Dispatch.DecodedArgumentsNeverAbort | src/events.cpp:425-525 | with decoded arguments no turn stops the loop, whatever the listeners return, throw or edit |
| Dispatch.InvokesLiveListenerAtItsTurn | src/events.cpp:411-525 | a snapshotted listener still subscribed at its turn is invoked whatever earlier listeners did, including throwing: its invocation is appended, its edits give the live list, and a returned value becomes the result |
| Dispatch.SkipsListenerRemovedBeforeItsTurn | src/events.cpp:411-415 | a snapshotted listener no longer subscribed at its turn is skipped: its turn changes nothing |
| Dispatch.RunAfterAbort | src/events.cpp:437-442 | after a decoding failure the remaining turns change nothing |
| Dispatch.MarshalingFaultInvokesNone | src/events.cpp:437-442 | a failed decode invokes no listener and leaves the list and the result unchanged |
| Dispatch.InvokedInSnapshotOrder | src/events.cpp:409-415 | the listeners invoked are a subsequence of the snapshot, so none subscribed during the dispatch is invoked by it |
| Dispatch.EachListenerInvokedAtMostOnce | src/events.cpp:409-415 | with no two listeners sharing a function, no listener is invoked twice in one dispatch |
| Dispatch.LastSuccessWins | src/events.cpp:514-525 | the result is the value of the last invocation that returned, or the initial value when every invocation threw or none happened |
| Dispatch.RunKeepsFunctionsUnique | src/events.cpp:409-525 | a dispatch keeps the invariant that no two listeners share a function, whatever its listeners subscribe or unsubscribe |
| Dispatch.SelfRemovalSkipsNoOther | src/events.cpp:409-525 | when listeners only subscribe or remove themselves, every snapshotted listener is invoked exactly once, in order, whether earlier ones threw or not |
| Events.Event.constructor | src/events.cpp:194-199 | a new event has the given name and signature and no listeners |
| Events.Event.FunctionSubscribed | src/events.cpp:215-219 | the scan is true exactly when some listener holds the function, in any context |
| Events.Event.IsSubscribed | src/events.cpp:413 | the search is true exactly when the listener is in the live list |
| Events.Event.FirstMatch | src/events.cpp:126-133 | the result is the position of the first listener equal to (context, function), or -1 exactly when there is none |
| Events.Event.Append | src/events.cpp:211-233 | the list becomes `Appended` of the old list, and the invariant is kept |
| Events.Event.Remove | src/events.cpp:235-238 | the list becomes `Without` of the old list, and the invariant is kept |
| Events.Event.RemoveAll | src/events.cpp:240-243 | the list becomes empty |
| Events.Event.RemoveMatching | src/events.cpp:126-133 | removing the first match leaves `Without(old, (context, function))` |
| Events.Event.RemoveMatchingEach | src/events.cpp:108-123 | the list becomes `RemoveEach` of the old list over the array's elements |
| Events.Event.RemoveByContext | src/events.cpp:136-146 | the sweep over a copy leaves `WithoutContext` of the old list |
| Events.Event.Perform | src/events.cpp:54-148 | the calls a running listener makes on the event leave `Edited` of the old list |
| Events.Event.RunListeners | src/events.cpp:409-525 | the snapshot-and-recheck loop ends with the list, result and invocations that `Run` gives |
| Events.Event.Call | src/events.cpp:245-279 | `call(args)` leaves the list and makes the invocations that `Run` gives with the arguments unchanged |
| Events.Event.CallLegacy | src/events.cpp:281-405 | `call(AMX*)` leaves the list and result and makes the invocations that `Run` gives on `DecodeLegacy`'s arguments |
| Events.Event.CallFromPawnNative | src/events.cpp:407-527 | `call_from_pawn_native` leaves the list, result and invocations that `Run` gives on `Decode`'s arguments |
| Events.SubscribesTo | src/events.cpp:66-79 | `on` subscribes only when the name is a string naming the event and the last argument is a function, so never with the name alone |
| Events.Unsubscribed | src/events.cpp:105-146 | `removeListener` never adds a listener and never removes one bound to another context |
| Events.Registry.constructor | src/events.cpp:13 | the registry starts empty |
| Events.Registry.Register | src/events.cpp:15-20 | returns true exactly for a new name, adding only that event with an empty list; an existing name leaves the map, and that event's signature, unchanged |
| Events.Registry.RegisterFromScript | src/events.cpp:22-52 | sets no result with fewer than two arguments and false unless both are strings; otherwise behaves as `Register` |
| Events.Registry.On | src/events.cpp:54-81 | only the named event changes, and only when the last argument is a function: its list becomes `Appended` |
| Events.Registry.RemoveListener | src/events.cpp:83-148 | only the named event changes: by the array form, the function form or the context form, according to the second argument |
| Events.Registry.Fire | src/events.cpp:150-178 | the named event's list becomes what `Run` gives with the arguments after the name; the invocations are `Run`'s and follow the snapshot order; an unknown name invokes nobody; every other event is unchanged, because a listener's calls are limited to the event being dispatched (see `Events.Event.Perform` under "Left out") |
| Events.Registry.PawnCallEvent | src/events.cpp:180-192 | returns 0 for an unknown name; otherwise the last returned value (0 if none) as `Run` on `Decode` gives; every other event is unchanged, because a listener's calls are limited to the event being dispatched (see `Events.Event.Perform` under "Left out") |
| Scenario.DecodesFortyTwo | src/events.cpp:496-500 | signature "i" with the argument's address in the cell decodes to the integer stored there |
| Scenario.EchoReturnsArgument | src/events.cpp:509-525 | a lone listener that echoes its argument makes the call return that argument |
| Scenario.SubscribeCallUnsubscribe | src/events.cpp:180-192 | register, subscribe and call from Pawn yields 42; after `removeListener` with the name alone the same call yields 0 |

## Left out

- V8 scaffolding: `Locker`, the scopes, `CancelTerminateExecution` and `TryCatch`.
  - Their only visible effect is whether an invocation throws or returns, and the oracle gives that.
  - Locking and concurrent callers from other threads are not modelled.
- JavaScript coercion: `IsString`, `IsFunction`, `IsArray` and `js_to_string` are read off the `Value` constructors.
  - `Int32Value` of a returned value is the oracle's `int32`.
  - A return value whose conversion fails is not modelled.
- Byte strings: event names and signatures are the `std::string` that `js_to_string` returns (src/events.cpp:42), a UTF-8 byte string.
  - Both Pawn decoders take `argc = paramTypes.length()` (src/events.cpp:303, 426) and switch on each byte, so a non-ASCII character in a signature is several unknown tags, each an empty argument.
  - The model's `string` counts characters: a signature such as "é" decodes to one `Empty` argument where the source passes two empty slots.
  - Names are compared as whole strings in both, so lookups in the registry are unaffected.
- Floating point: `amx_ctof` and the float tags keep the raw cell (`Num`, `NumArray`).
  - The truncation of `'v'` elements through `Integer::New` is therefore not modelled.
- Strings: the text of a Pawn string, and its UTF-8 decoding, are not modelled.
  - A `'s'` argument is its address (`VmString`), which either resolves or fails.
  - A failing `amx_GetString` after a successful `amx_GetAddr` is not modelled.
  - The event name passed to `pawn_call_event` is given as a string rather than read through `amx_StrParam`.
- Logging (`L_ERROR`, `L_INFO`): output only.
- Heap management is not modelled:
  - `call(args)` runs `delete[] args` inside the listener loop (src/events.cpp:269). The shared argument array is freed after the first listener and handed freed to later ones.
  - Every early return of the two Pawn decoders leaks `argv`: src/events.cpp:318, 325, 336 and 355, and 442, 449, 460 and 478.
  - `sval` (src/events.cpp:321, 445) is never freed on any path.
  - The model's argument sequences are immutable values, so none of these defects can be expressed.
- Empty argument slots: an unknown tag, or a tag the older decoder skips, leaves an empty `v8::Local` in `argv`. The source passes that empty handle to `Function::Call` (src/events.cpp:388, 510).
  - The model hands the listener the value `Empty` in that slot instead.
- Events.Event.CallFromPawnNative, Events.Event.CallLegacy and Events.Registry.PawnCallEvent: decode once per dispatch, and so assume that listeners do not write the Pawn data segment.
  - Both Pawn `call`s decode again for each live listener, and `pawn_call_event` reaches the native one (src/events.cpp:190).
  - `call_from_pawn_native` reads scalars, array sizes and array elements through their addresses every time (src/events.cpp:462, 481, 466, 485, 493-503).
  - The older `call(AMX*, cell*, cell*)` reads strings and array elements through their addresses every time (src/events.cpp:315-322, 343, 362).
  - A listener may run Pawn code that changes those cells, which is not modelled. Two behaviours are lost:
    - a later listener seeing values that an earlier one changed;
    - an address failure after earlier listeners have already written `*retval`.
  - In the model, a decoding failure stops the loop at the first live listener, with the result still at its initial value.
- Events.Event.CallFromPawnNative and Events.Registry.PawnCallEvent: require as many parameter cells as the signature consumes.
  - The source reads past the passed arguments when fewer are given, which is undefined.
  - The same holds for Events.Event.CallLegacy and `LegacyFits`.
- Values.Load: a read through an address outside the data segment yields 0.
  - This covers the by-reference scalars and array sizes of `call_from_pawn_native` (src/events.cpp:462, 481, 493-503) and the array elements `array[j]` of both Pawn decoders (src/events.cpp:343, 362, 466, 485), which `Codec.Elements` reads through `Load`.
  - `get_amxaddr` does not check its address, and the element loops do not check `size` against the segment, so the source reads out of bounds there.
- The case `retval == nullptr` of the two Pawn `call`s is not modelled.
  - The methods always write a result.
  - `pawn_call_event` passes `&retVal`. The older `call(AMX*, cell*, cell*)` has no caller in `src/events.cpp`.
- The listener's isolate is not modelled: it only selects which engine to lock.
- Listener equality: `operator==` of `EventListener_t` is taken as equality of the (context, function) pair. `events.hpp`, where it is defined, is not part of this model.
- `remove(element)` is passed a reference into the vector it erases from. `std::remove` may overwrite that element while it runs.
  - The model compares against the value as it was.
  - Under the invariant that no two listeners share a function, the difference cannot show.
- Events.Event.Perform: the calls a listener makes while it runs are limited to this event, from its own context.
  - These are `on` with a function, `removeListener` with a function, and `removeListener` with the name alone.
  - Registering events, touching other events, array-form removal, and firing events recursively during a dispatch are not modelled.
- Listeners.Keep: specified by membership and order, not by multiplicity.
  - Under the listener invariant no element occurs twice.
- The older `call(AMX*, cell*, cell*)` is modelled as the method `Events.Event.CallLegacy`.
  - Its size cell `params[i + 2]` is read directly, not through its address.

=== FILE: codec.dfy ===
/** Decoding the raw cells of a Pawn call into listener arguments, driven by
    an event's `paramTypes` string: the decoder of `call_from_pawn_native`
    and the older decoder of `call(AMX*, cell*, cell*)`. */
module Codec {
  import opened Values

  /** `'a'` (integer array) and `'v'` (float array) take two cells: the
      array's address and its element count. Every other tag takes one. */
  predicate IsArrayTag(t: char)
  {
    t == 'a' || t == 'v'
  }

  /** How many array tags `types` holds. */
  function ArrayTags(types: string): (n: nat)
    ensures n <= |types|
  {
    if types == [] then 0
    else ArrayTags(types[..|types| - 1]) + (if IsArrayTag(types[|types| - 1]) then 1 else 0)
  }

  /** The cells a signature consumes after the event name: one per tag and
      one more per array tag. */
  function CellsConsumed(types: string): (n: nat)
    ensures |types| <= n <= 2 * |types|
  {
    |types| + ArrayTags(types)
  }

  lemma {:induction false} PrefixConsumesLess(types: string, j: nat)
    requires j <= |types|
    ensures j + ArrayTags(types[..j]) <= CellsConsumed(types)
    decreases |types|
  {
    if j < |types| {
      var init := types[..|types| - 1];
      assert init[..j] == types[..j];
      PrefixConsumesLess(init, j);
    } else {
      assert types[..j] == types;
    }
  }

  /** The raw cell (counted from the event name's cell, 0) that tag `i` of
      the native decoder reads: `i + paramOffset + 1`, where `paramOffset`
      has grown by one for each array tag before `i`. */
  function CellIndex(types: string, i: nat): (k: nat)
    requires i < |types|
    ensures i < k
    ensures k + (if IsArrayTag(types[i]) then 1 else 0) <= CellsConsumed(types)
  {
    PrefixConsumesLess(types, i + 1);
    assert types[..i + 1][..i] == types[..i];
    i + ArrayTags(types[..i]) + 1
  }

  /** `static_cast<uint32_t>` of a cell, as a mathematical integer. */
  function AsUint32(c: int32): (u: nat)
  {
    if c < 0 then c as int + 0x1_0000_0000 else c as int
  }

  /** The cell handed to V8's `Integer::New` after a `static_cast<uint32_t>`:
      `Integer::New` takes an `int32_t`, so the value converts back. */
  function ThroughUint32(c: int32): (r: int32)
    ensures r == c
  {
    var u := AsUint32(c);
    if u >= 0x8000_0000 then (u - 0x1_0000_0000) as int32 else u as int32
  }

  /** The `size` elements of the array at `base`: `array[j]` for `j < size`,
      none when `size` is negative. */
  function Elements(amx: Amx, base: int32, size: int32): (items: seq<int32>)
  {
    seq(if size < 0 then 0 else size as int, j => Load(amx, base as int + CellSize * j))
  }

  /** The argument tag `t` yields from raw cell `k` (and `k + 1` for an
      array), or None when `amx_GetAddr` rejects the address it resolves.
      `byReference` tells the native decoder, which reads scalar payloads and
      array sizes through `get_amxaddr`, from the older one, which takes the
      cells as they are. An unknown tag leaves its slot empty. */
  function DecodeTag(amx: Amx, params: seq<int32>, t: char, k: nat, byReference: bool): (r: Option<Value>)
    requires k < |params|
    requires IsArrayTag(t) ==> k + 1 < |params|
    ensures r.None? <==> t in "sav" && !Resolves(amx, params[k] as int)
  {
    var scalar := (c: int32) => if byReference then Load(amx, c as int) else c;
    match t
    case 's' => if Resolves(amx, params[k] as int) then Some(VmString(params[k])) else None
    case 'a' =>
      if Resolves(amx, params[k] as int)
      then
        var items := Elements(amx, params[k], scalar(params[k + 1]));
        Some(IntArray(seq(|items|, j requires 0 <= j < |items| => ThroughUint32(items[j]))))
      else None
    case 'v' =>
      if Resolves(amx, params[k] as int)
      then Some(NumArray(Elements(amx, params[k], scalar(params[k + 1]))))
      else None
    case 'd' => Some(Int(scalar(params[k])))
    case 'i' => Some(Int(ThroughUint32(scalar(params[k]))))
    case 'f' => Some(Num(scalar(params[k])))
    case _ => Some(Empty)
  }

  /** Tag `i` of `types` as the native decoder decodes it. */
  function TagAt(amx: Amx, params: seq<int32>, types: string, i: nat): (r: Option<Value>)
    requires CellsConsumed(types) < |params|
    requires i < |types|
    ensures r.None? <==> types[i] in "sav" && !Resolves(amx, params[CellIndex(types, i)] as int)
  {
    DecodeTag(amx, params, types[i], CellIndex(types, i), true)
  }

  /** What `call_from_pawn_native` hands its listeners: tag `i` decoded from
      cell `CellIndex(types, i)`, or None when any tag's address fails. */
  function Decode(amx: Amx, params: seq<int32>, types: string): (r: Option<seq<Value>>)
    requires CellsConsumed(types) < |params|
    ensures r.Some? ==> |r.value| == |types|
    ensures r.None? <==> exists i :: 0 <= i < |types| && types[i] in "sav" &&
                                     !Resolves(amx, params[CellIndex(types, i)] as int)
  {
    if forall i :: 0 <= i < |types| ==> TagAt(amx, params, types, i).Some?
    then
      assert forall i :: 0 <= i < |types| ==>
               !(types[i] in "sav" && !Resolves(amx, params[CellIndex(types, i)] as int)) by {
        forall i | 0 <= i < |types|
          ensures !(types[i] in "sav" && !Resolves(amx, params[CellIndex(types, i)] as int))
        {
          assert TagAt(amx, params, types, i).Some?;
        }
      }
      Some(seq(|types|, i requires 0 <= i < |types| => TagAt(amx, params, types, i).value))
    else None
  }

  /** The native decoder's loop: the tag cursor `i` and the cell offset
      `paramOffset`, which each array tag advances by one. */
  method DecodeArgs(amx: Amx, params: seq<int32>, types: string) returns (r: Option<seq<Value>>)
    requires CellsConsumed(types) < |params|
    ensures r == Decode(amx, params, types)
  {
    var argv := new Value[|types|](_ => Empty);
    var paramOffset := 0;
    var i := 0;
    while i < |types|
      invariant 0 <= i <= |types|
      invariant paramOffset == ArrayTags(types[..i])
      invariant forall j :: 0 <= j < i ==> TagAt(amx, params, types, j) == Some(argv[j])
    {
      var k := i + paramOffset + 1;
      assert k == CellIndex(types, i);
      var v := DecodeTag(amx, params, types[i], k, true);
      assert v == TagAt(amx, params, types, i);
      if v.None? {
        return None;
      }
      argv[i] := v.value;
      if IsArrayTag(types[i]) {
        paramOffset := paramOffset + 1;
      }
      assert types[..i + 1][..i] == types[..i];
      i := i + 1;
    }
    assert argv[..] == seq(|types|, i requires 0 <= i < |types| => TagAt(amx, params, types, i).value);
    r := Some(argv[..]);
  }

  /** How many array tags stand immediately before tag `i`. */
  function ArrayRunBefore(types: string, i: nat): (n: nat)
    requires i <= |types|
    ensures n <= i
  {
    if i == 0 || !IsArrayTag(types[i - 1]) then 0 else ArrayRunBefore(types, i - 1) + 1
  }

  /** In the older decoder an array tag also steps over the tag after it:
      that tag is never decoded and its argument slot stays empty. */
  predicate LegacySkipped(types: string, i: nat)
    requires i < |types|
  {
    i > 0 && IsArrayTag(types[i - 1]) && !LegacySkipped(types, i - 1)
  }

  /** The older decoder skips a tag exactly when an odd number of array
      tags stand right before it: of a run of array tags, the first, third,
      ... are decoded and each swallows the tag after it. */
  lemma {:induction false} LegacySkippedParity(types: string, i: nat)
    requires i < |types|
    ensures LegacySkipped(types, i) <==> ArrayRunBefore(types, i) % 2 == 1
  {
    if i > 0 && IsArrayTag(types[i - 1]) {
      LegacySkippedParity(types, i - 1);
    }
  }

  /** The caller supplies every cell the older decoder reads. */
  predicate LegacyFits(types: string, cells: nat)
  {
    forall i :: 0 <= i < |types| && !LegacySkipped(types, i) ==>
      i + 1 + (if IsArrayTag(types[i]) then 1 else 0) < cells
  }

  /** Argument `i` as the older decoder leaves it: empty when skipped,
      otherwise tag `i` decoded from cell `i + 1`. */
  function LegacyArgAt(amx: Amx, params: seq<int32>, types: string, i: nat): (r: Option<Value>)
    requires LegacyFits(types, |params|)
    requires i < |types|
    ensures r.None? <==> !LegacySkipped(types, i) && types[i] in "sav" && !Resolves(amx, params[i + 1] as int)
  {
    if LegacySkipped(types, i) then Some(Empty) else DecodeTag(amx, params, types[i], i + 1, false)
  }

  /** What `call(AMX*, cell*, cell*)` hands its listeners: tag `i` decoded
      from cell `i + 1`, skipped tags left empty. */
  function DecodeLegacy(amx: Amx, params: seq<int32>, types: string): (r: Option<seq<Value>>)
    requires LegacyFits(types, |params|)
    ensures r.Some? ==> |r.value| == |types|
    ensures r.None? <==> exists i :: 0 <= i < |types| && !LegacySkipped(types, i) && types[i] in "sav" &&
                                     !Resolves(amx, params[i + 1] as int)
  {
    if forall i :: 0 <= i < |types| ==> LegacyArgAt(amx, params, types, i).Some?
    then
      assert forall i :: 0 <= i < |types| ==>
               !(!LegacySkipped(types, i) && types[i] in "sav" && !Resolves(amx, params[i + 1] as int)) by {
        forall i | 0 <= i < |types|
          ensures !(!LegacySkipped(types, i) && types[i] in "sav" && !Resolves(amx, params[i + 1] as int))
        {
          assert LegacyArgAt(amx, params, types, i).Some?;
        }
      }
      Some(seq(|types|, i requires 0 <= i < |types| => LegacyArgAt(amx, params, types, i).value))
    else None
  }

  /** The older decoder's loop: one cursor `i` that an array tag bumps. */
  method DecodeLegacyArgs(amx: Amx, params: seq<int32>, types: string) returns (r: Option<seq<Value>>)
    requires LegacyFits(types, |params|)
    ensures r == DecodeLegacy(amx, params, types)
  {
    var argv := new Value[|types|](_ => Empty);
    var i := 0;
    while i < |types|
      invariant 0 <= i <= |types| + 1
      invariant i < |types| ==> !LegacySkipped(types, i)
      invariant forall j :: 0 <= j < i && j < |types| ==> LegacyArgAt(amx, params, types, j) == Some(argv[j])
      invariant forall j :: i <= j < |types| ==> argv[j] == Empty
    {
      var v := DecodeTag(amx, params, types[i], i + 1, false);
      assert v == LegacyArgAt(amx, params, types, i);
      if v.None? {
        return None;
      }
      argv[i] := v.value;
      if IsArrayTag(types[i]) {
        if i + 1 < |types| {
          assert LegacySkipped(types, i + 1);
          assert LegacyArgAt(amx, params, types, i + 1) == Some(Empty);
        }
        i := i + 1;
      }
      i := i + 1;
    }
    assert argv[..] == seq(|types|, i requires 0 <= i < |types| => LegacyArgAt(amx, params, types, i).value);
    r := Some(argv[..]);
  }

  /** Tag `i + 1` reads the cell after tag `i`'s cells: one further on after
      a scalar tag, two after an array tag. */
  lemma NextTagCell(types: string, i: nat)
    requires i + 1 < |types|
    ensures CellIndex(types, i + 1) == CellIndex(types, i) + (if IsArrayTag(types[i]) then 2 else 1)
  {
    assert types[..i + 1][..i] == types[..i];
  }

  /** For the signature "ai" the native decoder takes the integer from the
      third cell after the name (cells 1 and 2 hold the array), while the
      older decoder never decodes the integer at all. */
  lemma ArrayThenIntegerReadsThirdCell()
    ensures CellIndex("ai", 0) == 1 && CellIndex("ai", 1) == 3
    ensures LegacySkipped("ai", 1)
  {
    assert "ai"[..1] == "a";
    assert "a"[..0] == "";
  }

  lemma {:induction false} NoArrayTagsInPrefix(types: string, j: nat)
    requires j <= |types|
    requires forall i :: 0 <= i < |types| ==> !IsArrayTag(types[i])
    ensures ArrayTags(types[..j]) == 0
  {
    if j > 0 {
      NoArrayTagsInPrefix(types, j - 1);
      assert types[..j][..j - 1] == types[..j - 1];
    }
  }

  /** Without array tags the two decoders agree on where each tag's cell is:
      tag `i` reads cell `i + 1` and no tag is skipped. */
  lemma {:induction false} DecodersAgreeWithoutArrays(types: string)
    requires forall i :: 0 <= i < |types| ==> !IsArrayTag(types[i])
    ensures forall i :: 0 <= i < |types| ==> CellIndex(types, i) == i + 1 && !LegacySkipped(types, i)
  {
    forall i | 0 <= i < |types| ensures CellIndex(types, i) == i + 1 && !LegacySkipped(types, i) {
      NoArrayTagsInPrefix(types, i);
    }
  }

  /** The 'i' tag is meant as unsigned, but the value goes through V8's
      signed `Integer::New`: it decodes exactly like 'd'. */
  lemma UnsignedTagDecodesAsSigned(amx: Amx, params: seq<int32>, k: nat, byReference: bool)
    requires k < |params|
    ensures DecodeTag(amx, params, 'i', k, byReference) == DecodeTag(amx, params, 'd', k, byReference)
  {
  }

  /** The signature "sdif" with the cells of a string address, 42, 7 and a
      float: the listener receives the string, 42, 7 and the float's cell. */
  lemma SdifExample(flt: int32)
    ensures CellsConsumed("sdif") == 4
    ensures var amx := Amx(map[100 := 104, 200 := 42, 204 := 7, 208 := flt]);
      Decode(amx, [0, 100, 200, 204, 208], "sdif") == Some([VmString(100), Int(42), Int(7), Num(flt)])
  {
    var types, params := "sdif", [0, 100, 200, 204, 208];
    var amx := Amx(map[100 := 104, 200 := 42, 204 := 7, 208 := flt]);
    NoArrayTagsInPrefix(types, 4);
    assert types[..4] == types;
    DecodersAgreeWithoutArrays(types);
    var expected := [VmString(100), Int(42), Int(7), Num(flt)];
    forall i | 0 <= i < 4 ensures TagAt(amx, params, types, i) == Some(expected[i]) {
      assert CellIndex(types, i) == i + 1;
      if i == 2 {
        assert ThroughUint32(7) == 7;
      }
    }
    var decoded := seq(|types|, i requires 0 <= i < |types| => TagAt(amx, params, types, i).value);
    assert decoded == expected;
  }
}

=== FILE: dispatch.dfy ===
/** The dispatch loop shared by `call(args)`, `call(AMX*, ...)` and
    `call_from_pawn_native`, as a function of the listener snapshot: copy the
    list, and for each copied listener that is still subscribed when its
    turn comes, invoke it; a listener that throws is logged and the loop goes
    on, a listener that returns overwrites the result. */
module Dispatch {
  import opened Values
  import opened Listeners

  /** How one invocation ends: it threw, or it returned a value whose
      `Int32Value` is `value`. */
  datatype Outcome = Fault | Returned(value: int32)

  /** A call that a running listener makes on the event being dispatched,
      from its own context: `on` with a function, `removeListener` with a
      function, or `removeListener` with the name alone. */
  datatype Edit = Subscribe(func: FuncId) | Unsubscribe(func: FuncId) | UnsubscribeAll

  /** What one invocation does: its outcome and the edits it makes. */
  datatype Reaction = Reaction(outcome: Outcome, edits: seq<Edit>)

  /** The JavaScript engine, seen from the bus: what invoking a listener
      with some arguments does. */
  type Oracle = (Listener, seq<Value>) -> Reaction

  /** One invocation, in the order the loop made them. */
  datatype Invocation = Invocation(listener: Listener, outcome: Outcome)

  /** The loop's state: the live listener list, the value in `*retval`, the
      invocations so far, and whether decoding aborted the loop. */
  datatype DispatchState = DispatchState(live: seq<Listener>, retval: int32, calls: seq<Invocation>, aborted: bool)

  function Start(live: seq<Listener>, retval: int32): (st: DispatchState)
  {
    DispatchState(live, retval, [], false)
  }

  /** The listener list after one edit made from context `c`; the listeners
      of other contexts are untouched. */
  function ApplyEdit(s: seq<Listener>, c: ContextId, e: Edit): (r: seq<Listener>)
    ensures forall x: Listener :: x.context != c ==> (x in r <==> x in s)
  {
    match e
    case Subscribe(f) => Appended(s, c, f)
    case Unsubscribe(f) => Without(s, Listener(c, f))
    case UnsubscribeAll => WithoutContext(s, c)
  }

  /** The listener list after a sequence of edits made from context `c`;
      the listeners of other contexts are untouched. */
  function Edited(s: seq<Listener>, c: ContextId, edits: seq<Edit>): (r: seq<Listener>)
    ensures forall x: Listener :: x.context != c ==> (x in r <==> x in s)
  {
    if edits == [] then s
    else ApplyEdit(Edited(s, c, edits[..|edits| - 1]), c, edits[|edits| - 1])
  }

  /** The turn of snapshotted listener `l`. `args` is None when decoding the
      arguments failed, which ends the loop at the first live listener. */
  function Step(st: DispatchState, l: Listener, args: Option<seq<Value>>, oracle: Oracle): (r: DispatchState)
    ensures st.aborted || l !in st.live ==> r == st
    ensures !st.aborted && l in st.live && args.None? ==> r == st.(aborted := true)
    ensures !st.aborted && l in st.live && args.Some? ==>
      && !r.aborted
      && r.calls == st.calls + [Invocation(l, oracle(l, args.value).outcome)]
      && (oracle(l, args.value).outcome.Returned? ==> r.retval == oracle(l, args.value).outcome.value)
      && forall x: Listener :: x.context != l.context ==> (x in r.live <==> x in st.live)
    ensures r.retval != st.retval ==> r.calls != st.calls && r.calls[|r.calls| - 1].outcome == Returned(r.retval)
  {
    if st.aborted || l !in st.live then st
    else if args.None? then st.(aborted := true)
    else
      var reaction := oracle(l, args.value);
      DispatchState(Edited(st.live, l.context, reaction.edits),
                    if reaction.outcome.Returned? then reaction.outcome.value else st.retval,
                    st.calls + [Invocation(l, reaction.outcome)],
                    false)
  }

  /** The turns of every listener of `snapshot`, in order. */
  function Run(snapshot: seq<Listener>, st: DispatchState, args: Option<seq<Value>>, oracle: Oracle): (r: DispatchState)
    ensures |st.calls| <= |r.calls| <= |st.calls| + |snapshot|
    ensures r.calls[..|st.calls|] == st.calls
    ensures st.aborted ==> r == st
  {
    if snapshot == [] then st
    else Step(Run(snapshot[..|snapshot| - 1], st, args, oracle), snapshot[|snapshot| - 1], args, oracle)
  }

  /** The listeners invoked, in order. */
  function Invoked(calls: seq<Invocation>): (r: seq<Listener>)
    ensures |r| == |calls|
  {
    seq(|calls|, k requires 0 <= k < |calls| => calls[k].listener)
  }

  lemma RunPrefix(snapshot: seq<Listener>, k: nat, st: DispatchState, args: Option<seq<Value>>, oracle: Oracle)
    requires k < |snapshot|
    ensures Run(snapshot[..k + 1], st, args, oracle) == Step(Run(snapshot[..k], st, args, oracle), snapshot[k], args, oracle)
  {
    assert snapshot[..k + 1][..k] == snapshot[..k];
  }

  /** A snapshotted listener that is no longer subscribed when its turn
      comes is skipped: its turn changes nothing. */
  lemma SkipsListenerRemovedBeforeItsTurn(snapshot: seq<Listener>, k: nat, st: DispatchState,
                                          args: Option<seq<Value>>, oracle: Oracle)
    requires k < |snapshot|
    requires snapshot[k] !in Run(snapshot[..k], st, args, oracle).live
    ensures Run(snapshot[..k + 1], st, args, oracle) == Run(snapshot[..k], st, args, oracle)
  {
    RunPrefix(snapshot, k, st, args, oracle);
  }

  /** With decoded arguments the loop never stops early: whatever the
      listeners return, throw or edit, no turn sets `aborted`. */
  lemma {:induction false} DecodedArgumentsNeverAbort(snapshot: seq<Listener>, st: DispatchState,
                                                      args: seq<Value>, oracle: Oracle)
    requires !st.aborted
    ensures !Run(snapshot, st, Some(args), oracle).aborted
  {
    if snapshot != [] {
      DecodedArgumentsNeverAbort(snapshot[..|snapshot| - 1], st, args, oracle);
    }
  }

  /** A snapshotted listener still subscribed when its turn comes is invoked
      with the decoded arguments, whatever the earlier listeners returned,
      threw or edited: its invocation is appended, its edits give the new
      live list, and a returned value becomes the result. */
  lemma InvokesLiveListenerAtItsTurn(snapshot: seq<Listener>, k: nat, st: DispatchState,
                                     args: seq<Value>, oracle: Oracle)
    requires k < |snapshot| && !st.aborted
    requires snapshot[k] in Run(snapshot[..k], st, Some(args), oracle).live
    ensures var before := Run(snapshot[..k], st, Some(args), oracle);
      var r := Run(snapshot[..k + 1], st, Some(args), oracle);
      var reaction := oracle(snapshot[k], args);
      && !r.aborted
      && r.calls == before.calls + [Invocation(snapshot[k], reaction.outcome)]
      && r.live == Edited(before.live, snapshot[k].context, reaction.edits)
      && r.retval == if reaction.outcome.Returned? then reaction.outcome.value else before.retval
  {
    DecodedArgumentsNeverAbort(snapshot[..k], st, args, oracle);
    RunPrefix(snapshot, k, st, Some(args), oracle);
  }

  /** Once decoding has aborted the loop, the remaining turns change nothing
      (the source returns at once). */
  lemma {:induction false} RunAfterAbort(snapshot: seq<Listener>, k: nat, st: DispatchState,
                                         args: Option<seq<Value>>, oracle: Oracle)
    requires k <= |snapshot|
    requires Run(snapshot[..k], st, args, oracle).aborted
    ensures Run(snapshot, st, args, oracle) == Run(snapshot[..k], st, args, oracle)
  {
    if k < |snapshot| {
      var init := snapshot[..|snapshot| - 1];
      assert init[..k] == snapshot[..k];
      RunAfterAbort(init, k, st, args, oracle);
    } else {
      assert snapshot[..k] == snapshot;
    }
  }

  lemma InvokedSnoc(calls: seq<Invocation>, c: Invocation)
    ensures Invoked(calls + [c]) == Invoked(calls) + [c.listener]
  {
  }

  /** A turn invokes its listener once or not at all. */
  lemma StepInvokes(st: DispatchState, l: Listener, args: Option<seq<Value>>, oracle: Oracle)
    ensures var after := Invoked(Step(st, l, args, oracle).calls);
      after == Invoked(st.calls) || after == Invoked(st.calls) + [l]
  {
    var r := Step(st, l, args, oracle);
    if r.calls != st.calls {
      InvokedSnoc(st.calls, r.calls[|r.calls| - 1]);
    }
  }

  /** Listeners are invoked in snapshot order, each at most as often as it
      appears there: a listener subscribed during the dispatch is not
      invoked by it. */
  lemma {:induction false} InvokedInSnapshotOrder(snapshot: seq<Listener>, st: DispatchState,
                                                  args: Option<seq<Value>>, oracle: Oracle)
    requires st.calls == []
    ensures IsSubsequence(Invoked(Run(snapshot, st, args, oracle).calls), snapshot)
    ensures forall c :: c in Run(snapshot, st, args, oracle).calls ==> c.listener in snapshot
  {
    var calls := Run(snapshot, st, args, oracle).calls;
    var invoked := Invoked(calls);
    if snapshot != [] {
      var init, last := snapshot[..|snapshot| - 1], snapshot[|snapshot| - 1];
      InvokedInSnapshotOrder(init, st, args, oracle);
      var before := Invoked(Run(init, st, args, oracle).calls);
      StepInvokes(Run(init, st, args, oracle), last, args, oracle);
      if invoked != before {
        assert invoked == before + [last];
        assert invoked[..|invoked| - 1] == before;
      }
    } else {
      assert invoked == [];
    }
    SubsequenceMembers(invoked, snapshot);
    forall c | c in calls ensures c.listener in snapshot {
      var k :| 0 <= k < |calls| && calls[k] == c;
      assert invoked[k] == c.listener;
    }
  }

  /** The result is the value of the last invocation that returned, or the
      initial `*retval` when every invocation threw or there was none. */
  lemma {:induction false} LastSuccessWins(snapshot: seq<Listener>, st: DispatchState,
                                           args: Option<seq<Value>>, oracle: Oracle)
    requires st.calls == []
    ensures var r := Run(snapshot, st, args, oracle);
      (forall k :: 0 <= k < |r.calls| ==> r.calls[k].outcome.Fault?) ==> r.retval == st.retval
    ensures var r := Run(snapshot, st, args, oracle);
      forall k :: 0 <= k < |r.calls| && r.calls[k].outcome.Returned? &&
                  (forall j :: k < j < |r.calls| ==> r.calls[j].outcome.Fault?) ==>
        r.retval == r.calls[k].outcome.value
  {
    if snapshot != [] {
      var init := snapshot[..|snapshot| - 1];
      LastSuccessWins(init, st, args, oracle);
      var before := Run(init, st, args, oracle);
      var r := Run(snapshot, st, args, oracle);
      if r.calls != before.calls {
        var c := r.calls[|r.calls| - 1];
        assert r.calls == before.calls + [c];
        if c.outcome.Returned? {
          assert r.retval == c.outcome.value;
        } else {
          assert r.retval == before.retval;
          forall k | 0 <= k < |r.calls| && r.calls[k].outcome.Returned? &&
                     (forall j :: k < j < |r.calls| ==> r.calls[j].outcome.Fault?)
            ensures r.retval == r.calls[k].outcome.value
          {
            assert k < |before.calls| && before.calls[k] == r.calls[k];
            assert forall j :: k < j < |before.calls| ==> before.calls[j] == r.calls[j];
          }
          if forall k :: 0 <= k < |r.calls| ==> r.calls[k].outcome.Fault? {
            assert forall k :: 0 <= k < |before.calls| ==> before.calls[k] == r.calls[k];
          }
        }
      }
    }
  }

  /** A failed decode invokes no listener and leaves the list and the result
      as they were. */
  lemma {:induction false} MarshalingFaultInvokesNone(snapshot: seq<Listener>, st: DispatchState, oracle: Oracle)
    ensures var r := Run(snapshot, st, None, oracle);
      r.live == st.live && r.retval == st.retval && r.calls == st.calls
  {
    if snapshot != [] {
      MarshalingFaultInvokesNone(snapshot[..|snapshot| - 1], st, oracle);
    }
  }

  lemma {:induction false} EditedKeepsFunctionsUnique(s: seq<Listener>, c: ContextId, edits: seq<Edit>)
    requires FunctionsUnique(s)
    ensures FunctionsUnique(Edited(s, c, edits))
  {
    if edits != [] {
      var prev := Edited(s, c, edits[..|edits| - 1]);
      EditedKeepsFunctionsUnique(s, c, edits[..|edits| - 1]);
      match edits[|edits| - 1]
      case Subscribe(f) => AppendedKeepsFunctionsUnique(prev, c, f);
      case Unsubscribe(f) => KeepKeepsFunctionsUnique(prev, (x: Listener) => x != Listener(c, f));
      case UnsubscribeAll => KeepKeepsFunctionsUnique(prev, (x: Listener) => x.context != c);
    }
  }

  /** No two live listeners share a function, before and after a dispatch,
      whatever the listeners subscribe or unsubscribe while it runs. */
  lemma {:induction false} RunKeepsFunctionsUnique(snapshot: seq<Listener>, st: DispatchState,
                                                   args: Option<seq<Value>>, oracle: Oracle)
    requires FunctionsUnique(st.live)
    ensures FunctionsUnique(Run(snapshot, st, args, oracle).live)
  {
    if snapshot != [] {
      var last := snapshot[|snapshot| - 1];
      RunKeepsFunctionsUnique(snapshot[..|snapshot| - 1], st, args, oracle);
      var before := Run(snapshot[..|snapshot| - 1], st, args, oracle);
      if !before.aborted && last in before.live && args.Some? {
        EditedKeepsFunctionsUnique(before.live, last.context, oracle(last, args.value).edits);
      }
    }
  }

  /** Edits that only subscribe, or only unsubscribe the running listener
      itself, keep every other listener subscribed. */
  lemma {:induction false} SelfEditsKeepOthers(s: seq<Listener>, l: Listener, edits: seq<Edit>)
    requires forall e :: e in edits ==> e.Subscribe? || e == Unsubscribe(l.func)
    ensures forall x :: x in s && x != l ==> x in Edited(s, l.context, edits)
  {
    if edits != [] {
      var prefix := edits[..|edits| - 1];
      assert forall e :: e in prefix ==> e in edits;
      SelfEditsKeepOthers(s, l, prefix);
      var prev := Edited(s, l.context, prefix);
      assert edits[|edits| - 1] in edits;
      match edits[|edits| - 1]
      case Subscribe(f) => {
        assert forall x :: x in prev ==> x in Appended(prev, l.context, f);
      }
      case Unsubscribe(f) => {
        assert Listener(l.context, f) == l;
      }
    }
  }

  lemma {:induction false} SelfEditsRunAllUpTo(snapshot: seq<Listener>, k: nat, retval: int32,
                                               args: seq<Value>, oracle: Oracle)
    requires k <= |snapshot|
    requires Distinct(snapshot)
    requires forall l, a, e :: e in oracle(l, a).edits ==> e.Subscribe? || e == Unsubscribe(l.func)
    ensures var r := Run(snapshot[..k], Start(snapshot, retval), Some(args), oracle);
      !r.aborted && Invoked(r.calls) == snapshot[..k] &&
      forall j :: k <= j < |snapshot| ==> snapshot[j] in r.live
  {
    if k > 0 {
      SelfEditsRunAllUpTo(snapshot, k - 1, retval, args, oracle);
      RunPrefix(snapshot, k - 1, Start(snapshot, retval), Some(args), oracle);
      var before := Run(snapshot[..k - 1], Start(snapshot, retval), Some(args), oracle);
      var l := snapshot[k - 1];
      var reaction := oracle(l, args);
      SelfEditsKeepOthers(before.live, l, reaction.edits);
      InvokedSnoc(before.calls, Invocation(l, reaction.outcome));
      assert snapshot[..k] == snapshot[..k - 1] + [l];
      forall j | k <= j < |snapshot| ensures snapshot[j] in Edited(before.live, l.context, reaction.edits) {
        assert snapshot[j] != l;
      }
    } else {
      assert forall j :: 0 <= j < |snapshot| ==> snapshot[j] in snapshot;
    }
  }

  /** Fault isolation and self-removal: when the listeners only subscribe,
      or unsubscribe themselves, while they run, every snapshotted listener
      is invoked exactly once and in order, whether earlier ones threw or
      not. */
  lemma SelfRemovalSkipsNoOther(snapshot: seq<Listener>, retval: int32, args: seq<Value>, oracle: Oracle)
    requires Distinct(snapshot)
    requires forall l, a, e :: e in oracle(l, a).edits ==> e.Subscribe? || e == Unsubscribe(l.func)
    ensures Invoked(Run(snapshot, Start(snapshot, retval), Some(args), oracle).calls) == snapshot
  {
    SelfEditsRunAllUpTo(snapshot, |snapshot|, retval, args, oracle);
    assert snapshot[..|snapshot|] == snapshot;
  }

  /** Each listener is invoked at most once per dispatch when the snapshot
      holds it once, as it does when no two listeners share a function. */
  lemma EachListenerInvokedAtMostOnce(snapshot: seq<Listener>, st: DispatchState,
                                      args: Option<seq<Value>>, oracle: Oracle)
    requires st.calls == [] && FunctionsUnique(snapshot)
    ensures Distinct(Invoked(Run(snapshot, st, args, oracle).calls))
  {
    InvokedInSnapshotOrder(snapshot, st, args, oracle);
    SubsequenceKeepsDistinct(Invoked(Run(snapshot, st, args, oracle).calls), snapshot);
  }
}

=== FILE: events.dfy ===
/** The event bus itself: `event` objects with their listener lists, and the
    process-wide registry `events` with the entry points that the script
    engine (`registerEvent`, `on`, `removeListener`, `fire`) and the Pawn
    machine (`pawn_call_event`) call. */
module Events {
  import opened Values
  import opened Listeners
  import opened Codec
  import opened Dispatch

  /** One registered event: its name and parameter signature, fixed when it
      is created, and its listener list, changed in place. */
  class Event {
    const name: string
    const paramTypes: string
    var listeners: seq<Listener>

    /** `append` never subscribes a function twice. */
    ghost predicate Valid()
      reads this
    {
      FunctionsUnique(listeners)
    }

    constructor (name: string, paramTypes: string)
      ensures this.name == name && this.paramTypes == paramTypes
      ensures listeners == [] && Valid()
    {
      this.name := name;
      this.paramTypes := paramTypes;
      listeners := [];
    }

    /** The `std::any_of` scan of `append`: does some listener, in any
        context, hold function `f`? */
    method FunctionSubscribed(f: FuncId) returns (found: bool)
      ensures found <==> HasFunction(listeners, f)
    {
      var i := 0;
      while i < |listeners|
        invariant 0 <= i <= |listeners|
        invariant forall k :: 0 <= k < i ==> listeners[k].func != f
      {
        if listeners[i].func == f {
          assert listeners[i] in listeners;
          return true;
        }
        i := i + 1;
      }
      return false;
    }

    /** The `std::find` of the dispatch loop: is `l` still subscribed? */
    method IsSubscribed(l: Listener) returns (found: bool)
      ensures found <==> l in listeners
    {
      var i := 0;
      while i < |listeners|
        invariant 0 <= i <= |listeners|
        invariant l !in listeners[..i]
      {
        if listeners[i] == l {
          return true;
        }
        assert listeners[..i + 1] == listeners[..i] + [listeners[i]];
        i := i + 1;
      }
      assert listeners[..i] == listeners;
      return false;
    }

    /** The search of `remove_listener`: the position of the first listener
        bound to `context` with function `f`, or -1. */
    method FirstMatch(context: ContextId, f: FuncId) returns (k: int)
      ensures -1 <= k < |listeners|
      ensures k == -1 <==> Listener(context, f) !in listeners
      ensures k >= 0 ==> listeners[k] == Listener(context, f) &&
                         forall j :: 0 <= j < k ==> listeners[j] != Listener(context, f)
    {
      k := 0;
      while k < |listeners|
        invariant 0 <= k <= |listeners|
        invariant forall j :: 0 <= j < k ==> listeners[j] != Listener(context, f)
      {
        if listeners[k].context == context && listeners[k].func == f {
          return;
        }
        k := k + 1;
      }
      k := -1;
    }

    /** `append`: subscribe `f` from `context` unless some listener already
        holds `f`. */
    method Append(context: ContextId, f: FuncId)
      requires Valid()
      modifies this
      ensures Valid()
      ensures listeners == Appended(old(listeners), context, f)
    {
      var present := FunctionSubscribed(f);
      if present {
        return;
      }
      AppendedKeepsFunctionsUnique(listeners, context, f);
      listeners := listeners + [Listener(context, f)];
    }

    /** `remove`: the erase-remove idiom, dropping every element equal to `l`. */
    method Remove(l: Listener)
      requires Valid()
      modifies this
      ensures Valid()
      ensures listeners == Without(old(listeners), l)
    {
      var kept: seq<Listener> := [];
      var i := 0;
      while i < |listeners|
        invariant 0 <= i <= |listeners|
        invariant kept == Without(listeners[..i], l)
      {
        assert listeners[..i + 1][..i] == listeners[..i];
        if listeners[i] != l {
          kept := kept + [listeners[i]];
        }
        i := i + 1;
      }
      assert listeners[..i] == listeners;
      KeepKeepsFunctionsUnique(listeners, (x: Listener) => x != l);
      listeners := kept;
    }

    /** `remove_all`. */
    method RemoveAll()
      modifies this
      ensures Valid()
      ensures listeners == []
    {
      listeners := [];
    }

    /** `remove_listener` with one function: find the first listener bound to
        `context` with function `f`, and remove it. */
    method RemoveMatching(context: ContextId, f: FuncId)
      requires Valid()
      modifies this
      ensures Valid()
      ensures listeners == Without(old(listeners), Listener(context, f))
    {
      var k := FirstMatch(context, f);
      if k >= 0 {
        Remove(listeners[k]);
      } else {
        UnsubscribeRemovesAtMostOne(listeners, Listener(context, f));
      }
    }

    /** `remove_listener` with an array: the search-and-remove for each of
        its elements in turn; an element that is not a function matches no
        listener. */
    method RemoveMatchingEach(context: ContextId, items: seq<Value>)
      requires Valid()
      modifies this
      ensures Valid()
      ensures listeners == RemoveEach(old(listeners), context, items)
    {
      var i := 0;
      while i < |items|
        invariant 0 <= i <= |items|
        invariant Valid()
        invariant listeners == RemoveEach(old(listeners), context, items[..i])
      {
        assert items[..i + 1][..i] == items[..i];
        if items[i].Function? {
          RemoveMatching(context, items[i].id);
        }
        i := i + 1;
      }
      assert items[..i] == items;
    }

    /** `remove_listener` with the name alone: walk a copy of the list and
        remove each listener bound to `context`. */
    method RemoveByContext(context: ContextId)
      requires Valid()
      modifies this
      ensures Valid()
      ensures listeners == WithoutContext(old(listeners), context)
    {
      var copied := listeners;
      SweptNone(copied, context);
      var i := 0;
      while i < |copied|
        invariant 0 <= i <= |copied|
        invariant Valid()
        invariant listeners == Swept(copied, context, i)
      {
        SweptStep(copied, context, i);
        if copied[i].context == context {
          Remove(copied[i]);
        }
        i := i + 1;
      }
      SweptAll(copied, context);
    }

    /** The calls to `on` and `removeListener` that a running listener makes
        on this event from its own context. */
    method Perform(context: ContextId, edits: seq<Edit>)
      requires Valid()
      modifies this
      ensures Valid()
      ensures listeners == Edited(old(listeners), context, edits)
    {
      var i := 0;
      while i < |edits|
        invariant 0 <= i <= |edits|
        invariant Valid()
        invariant listeners == Edited(old(listeners), context, edits[..i])
      {
        assert edits[..i + 1][..i] == edits[..i];
        match edits[i] {
          case Subscribe(f) => Append(context, f);
          case Unsubscribe(f) => RemoveMatching(context, f);
          case UnsubscribeAll => RemoveByContext(context);
        }
        i := i + 1;
      }
      assert edits[..i] == edits;
    }

    /** The loop shared by the three `call`s: copy the list; for each copied
        listener still subscribed, stop if the arguments could not be
        decoded, otherwise invoke it and let a returned value overwrite the
        result. */
    method RunListeners(args: Option<seq<Value>>, oracle: Oracle, retval: int32)
      returns (result: int32, ghost calls: seq<Invocation>)
      requires Valid()
      modifies this
      ensures Valid()
      ensures var r := Run(old(listeners), Start(old(listeners), retval), args, oracle);
        listeners == r.live && result == r.retval && calls == r.calls
    {
      var copied := listeners;
      result, calls := retval, [];
      var i := 0;
      while i < |copied|
        invariant 0 <= i <= |copied|
        invariant Valid()
        invariant Run(copied[..i], Start(copied, retval), args, oracle) == DispatchState(listeners, result, calls, false)
      {
        RunPrefix(copied, i, Start(copied, retval), args, oracle);
        var listener := copied[i];
        var live := IsSubscribed(listener);
        if live {
          if args.None? {
            RunAfterAbort(copied, i + 1, Start(copied, retval), args, oracle);
            return;
          }
          var reaction := oracle(listener, args.value);
          Perform(listener.context, reaction.edits);
          calls := calls + [Invocation(listener, reaction.outcome)];
          if reaction.outcome.Returned? {
            result := reaction.outcome.value;
          }
        }
        i := i + 1;
      }
      assert copied[..i] == copied;
    }

    /** `call(args, argCount)`: the script-side `fire`, with arguments passed
        through unchanged and no result. */
    method Call(args: seq<Value>, oracle: Oracle) returns (ghost calls: seq<Invocation>)
      requires Valid()
      modifies this
      ensures Valid()
      ensures var r := Run(old(listeners), Start(old(listeners), 0), Some(args), oracle);
        listeners == r.live && calls == r.calls
    {
      var ignored;
      ignored, calls := RunListeners(Some(args), oracle, 0);
    }

    /** `call(amx, params, retval)`: the older Pawn entry, decoding with
        `DecodeLegacyArgs`. */
    method CallLegacy(amx: Amx, params: seq<int32>, oracle: Oracle, retval: int32)
      returns (result: int32, ghost calls: seq<Invocation>)
      requires Valid()
      requires LegacyFits(paramTypes, |params|)
      modifies this
      ensures Valid()
      ensures var r := Run(old(listeners), Start(old(listeners), retval), DecodeLegacy(amx, params, paramTypes), oracle);
        listeners == r.live && result == r.retval && calls == r.calls
    {
      var args := DecodeLegacyArgs(amx, params, paramTypes);
      result, calls := RunListeners(args, oracle, retval);
    }

    /** `call_from_pawn_native(amx, params, retval)`, decoding with
        `DecodeArgs`. */
    method CallFromPawnNative(amx: Amx, params: seq<int32>, oracle: Oracle, retval: int32)
      returns (result: int32, ghost calls: seq<Invocation>)
      requires Valid()
      requires CellsConsumed(paramTypes) < |params|
      modifies this
      ensures Valid()
      ensures var r := Run(old(listeners), Start(old(listeners), retval), Decode(amx, params, paramTypes), oracle);
        listeners == r.live && result == r.retval && calls == r.calls
    {
      var args := DecodeArgs(amx, params, paramTypes);
      result, calls := RunListeners(args, oracle, retval);
    }
  }

  /** What the sweep of `RemoveByContext` has left after visiting the first
      `i` listeners of its copy `copied`. */
  ghost function Swept(copied: seq<Listener>, c: ContextId, i: nat): (r: seq<Listener>)
    requires i <= |copied|
    ensures IsSubsequence(r, copied)
  {
    Keep(copied, (x: Listener) => !(x.context == c && x in copied[..i]))
  }

  lemma SweptNone(copied: seq<Listener>, c: ContextId)
    ensures Swept(copied, c, 0) == copied
  {
    KeepAll(copied, (x: Listener) => !(x.context == c && x in copied[..0]));
  }

  lemma SweptStep(copied: seq<Listener>, c: ContextId, i: nat)
    requires i < |copied|
    ensures copied[i].context == c ==> Swept(copied, c, i + 1) == Without(Swept(copied, c, i), copied[i])
    ensures copied[i].context != c ==> Swept(copied, c, i + 1) == Swept(copied, c, i)
  {
    var p := (x: Listener) => !(x.context == c && x in copied[..i]);
    var p' := (x: Listener) => !(x.context == c && x in copied[..i + 1]);
    assert copied[..i + 1] == copied[..i] + [copied[i]];
    if copied[i].context == c {
      var q := (x: Listener) => x != copied[i];
      KeepKeep(copied, p, q);
      KeepAgree(copied, (x: Listener) => p(x) && q(x), p');
    } else {
      KeepAgree(copied, p, p');
    }
  }

  lemma SweptAll(copied: seq<Listener>, c: ContextId)
    ensures Swept(copied, c, |copied|) == WithoutContext(copied, c)
  {
    assert copied[..|copied|] == copied;
    KeepAgree(copied, (x: Listener) => !(x.context == c && x in copied[..|copied|]),
              (x: Listener) => x.context != c);
  }

  /** `on(name, ..., f)` subscribes to event `n`: the name is the string
      `n` and the last argument is a function. */
  predicate SubscribesTo(args: seq<Value>, n: string)
    ensures SubscribesTo(args, n) ==> |args| >= 2
  {
    |args| > 0 && args[0] == Str(n) && args[|args| - 1].Function?
  }

  /** The listener list `removeListener(args)` leaves, called from context
      `c` on the event named by `args[0]`. */
  function Unsubscribed(s: seq<Listener>, c: ContextId, args: seq<Value>): (r: seq<Listener>)
    requires |args| > 0
    ensures forall x :: x in r ==> x in s
    ensures forall x: Listener :: x in s && x.context != c ==> x in r
  {
    if |args| > 1 then
      if args[1].Array? then RemoveEach(s, c, args[1].elements)
      else if args[1].Function? then Without(s, Listener(c, args[1].id))
      else s
    else WithoutContext(s, c)
  }

  /** The process-wide map `events` from name to event. */
  class Registry {
    var events: map<string, Event>

    /** Each event is filed under its own name, so distinct names hold
        distinct events. */
    ghost predicate Valid()
      reads this, events.Values
    {
      forall n :: n in events ==> events[n].name == n && events[n].Valid()
    }

    constructor ()
      ensures events == map[] && Valid()
    {
      events := map[];
    }

    /** `register_event(name, paramTypes)`: insert if absent. */
    method Register(name: string, paramTypes: string) returns (ok: bool)
      requires Valid()
      modifies this
      ensures Valid()
      ensures ok <==> name !in old(events)
      ensures !ok ==> events == old(events)
      ensures ok ==> name in events && fresh(events[name]) && events == old(events)[name := events[name]] &&
                     events[name].paramTypes == paramTypes && events[name].listeners == []
    {
      if name in events {
        return false;
      }
      var e := new Event(name, paramTypes);
      events := events[name := e];
      return true;
    }

    /** `register_event(info)`: undefined with fewer than two arguments,
        false unless both are strings, otherwise `Register`. */
    method RegisterFromScript(args: seq<Value>) returns (result: Option<bool>)
      requires Valid()
      modifies this
      ensures Valid()
      ensures |args| <= 1 ==> result == None && events == old(events)
      ensures |args| > 1 && !(args[0].Str? && args[1].Str?) ==> result == Some(false) && events == old(events)
      ensures |args| > 1 && args[0].Str? && args[1].Str? ==>
        var name := args[0].text;
        && result == Some(name !in old(events))
        && (name in old(events) ==> events == old(events))
        && (name !in old(events) ==>
              name in events && fresh(events[name]) && events == old(events)[name := events[name]] &&
              events[name].paramTypes == args[1].text && events[name].listeners == [])
    {
      if |args| <= 1 {
        return None;
      }
      if !args[0].Str? || !args[1].Str? {
        return Some(false);
      }
      var ok := Register(args[0].text, args[1].text);
      return Some(ok);
    }

    /** `on(name, ..., f)`: if `name` is a registered event and the last
        argument a function, append it from `context`; otherwise nothing. */
    method On(context: ContextId, args: seq<Value>)
      requires Valid()
      modifies events.Values
      ensures Valid()
      ensures forall n :: n in events ==>
        events[n].listeners == if SubscribesTo(args, n)
                               then Appended(old(events[n].listeners), context, args[|args| - 1].id)
                               else old(events[n].listeners)
    {
      if |args| > 0 && args[0].Str? && args[0].text in events {
        var e := events[args[0].text];
        var last := args[|args| - 1];
        if last.Function? {
          e.Append(context, last.id);
        }
      }
    }

    /** `removeListener(name [, target])` from `context`. */
    method RemoveListener(context: ContextId, args: seq<Value>)
      requires Valid()
      modifies events.Values
      ensures Valid()
      ensures forall n :: n in events ==>
        events[n].listeners == if |args| > 0 && args[0] == Str(n)
                               then Unsubscribed(old(events[n].listeners), context, args)
                               else old(events[n].listeners)
    {
      if |args| > 0 && args[0].Str? && args[0].text in events {
        var e := events[args[0].text];
        if |args| > 1 {
          if args[1].Array? {
            e.RemoveMatchingEach(context, args[1].elements);
          } else if args[1].Function? {
            e.RemoveMatching(context, args[1].id);
          }
        } else {
          e.RemoveByContext(context);
        }
      }
    }

    /** `fire(name, ...args)`: run the listeners of `name` with the rest of
        the arguments; nothing for an unknown name. */
    method Fire(args: seq<Value>, oracle: Oracle) returns (ghost calls: seq<Invocation>)
      requires Valid()
      modifies events.Values
      ensures Valid()
      ensures forall n :: n in events ==>
        events[n].listeners == if |args| > 0 && args[0] == Str(n)
                               then Run(old(events[n].listeners), Start(old(events[n].listeners), 0),
                                        Some(args[1..]), oracle).live
                               else old(events[n].listeners)
      ensures |args| > 0 && args[0].Str? && args[0].text in events ==>
        var e := events[args[0].text];
        && calls == Run(old(e.listeners), Start(old(e.listeners), 0), Some(args[1..]), oracle).calls
        && IsSubsequence(Invoked(calls), old(e.listeners))
      ensures !(|args| > 0 && args[0].Str? && args[0].text in events) ==> calls == []
    {
      calls := [];
      if |args| > 0 && args[0].Str? && args[0].text in events {
        var e := events[args[0].text];
        InvokedInSnapshotOrder(e.listeners, Start(e.listeners, 0), Some(args[1..]), oracle);
        calls := e.Call(args[1..], oracle);
      }
    }

    /** `pawn_call_event`: 0 for an unknown event; otherwise the value of
        the last listener that returned, or 0 when none did. `params` holds
        the Pawn arguments from the name's cell on. */
    method PawnCallEvent(amx: Amx, name: string, params: seq<int32>, oracle: Oracle)
      returns (result: int32, ghost calls: seq<Invocation>)
      requires Valid()
      requires name in events ==> CellsConsumed(events[name].paramTypes) < |params|
      modifies events.Values
      ensures Valid()
      ensures name !in events ==> result == 0 && calls == []
      ensures name in events ==>
        var e := events[name];
        var r := Run(old(e.listeners), Start(old(e.listeners), 0), Decode(amx, params, e.paramTypes), oracle);
        e.listeners == r.live && result == r.retval && calls == r.calls
      ensures (forall k :: 0 <= k < |calls| ==> calls[k].outcome.Fault?) ==> result == 0
      ensures forall k :: 0 <= k < |calls| && calls[k].outcome.Returned? &&
                          (forall j :: k < j < |calls| ==> calls[j].outcome.Fault?) ==>
                result == calls[k].outcome.value
      ensures forall n :: n in events && n != name ==> events[n].listeners == old(events[n].listeners)
    {
      if name !in events {
        return 0, [];
      }
      var e := events[name];
      LastSuccessWins(e.listeners, Start(e.listeners, 0), Decode(amx, params, e.paramTypes), oracle);
      result, calls := e.CallFromPawnNative(amx, params, oracle, 0);
    }
  }
}

=== FILE: listeners.dfy ===
/** The listener list of one event (`functionList`) as a value, and the
    operations that `append`, `remove`, `remove_all` and the three forms of
    `remove_listener` perform on it. */
module Listeners {
  import opened Values

  /** A subscribed callback: the context it was registered from and the
      function. Two listeners are equal when both components are. */
  datatype Listener = Listener(context: ContextId, func: FuncId)

  /** `a` is `b` with some elements left out and the rest in their order. */
  ghost predicate IsSubsequence(a: seq<Listener>, b: seq<Listener>)
    decreases |b|
  {
    a == [] ||
    (b != [] &&
     ((a[|a| - 1] == b[|b| - 1] && IsSubsequence(a[..|a| - 1], b[..|b| - 1])) ||
      IsSubsequence(a, b[..|b| - 1])))
  }

  lemma {:induction false} SubsequenceMembers(a: seq<Listener>, b: seq<Listener>)
    requires IsSubsequence(a, b)
    ensures forall x :: x in a ==> x in b
    decreases |b|
  {
    if a != [] {
      if a[|a| - 1] == b[|b| - 1] && IsSubsequence(a[..|a| - 1], b[..|b| - 1]) {
        SubsequenceMembers(a[..|a| - 1], b[..|b| - 1]);
        assert a == a[..|a| - 1] + [a[|a| - 1]];
        assert b == b[..|b| - 1] + [b[|b| - 1]];
      } else {
        SubsequenceMembers(a, b[..|b| - 1]);
        assert b == b[..|b| - 1] + [b[|b| - 1]];
      }
    }
  }

  /** No listener occurs twice in `s`. */
  ghost predicate Distinct(s: seq<Listener>)
  {
    forall i, j :: 0 <= i < j < |s| ==> s[i] != s[j]
  }

  lemma {:induction false} SubsequenceKeepsDistinct(a: seq<Listener>, b: seq<Listener>)
    requires IsSubsequence(a, b) && Distinct(b)
    ensures Distinct(a)
    decreases |b|
  {
    if a != [] {
      var b' := b[..|b| - 1];
      if a[|a| - 1] == b[|b| - 1] && IsSubsequence(a[..|a| - 1], b') {
        var a' := a[..|a| - 1];
        SubsequenceKeepsDistinct(a', b');
        SubsequenceMembers(a', b');
        forall i, j | 0 <= i < j < |a| ensures a[i] != a[j] {
          if j == |a| - 1 {
            assert a[i] in a';
            assert a[i] in b';
            var m :| 0 <= m < |b'| && b'[m] == a[i];
            assert b[m] == b'[m];
          } else {
            assert a[i] == a'[i] && a[j] == a'[j];
          }
        }
      } else {
        SubsequenceKeepsDistinct(a, b');
      }
    }
  }

  /** No two listeners of `s` share a function: the invariant `append` keeps,
      since it refuses a function that is already subscribed. */
  ghost predicate FunctionsUnique(s: seq<Listener>)
  {
    forall i, j :: 0 <= i < j < |s| ==> s[i].func != s[j].func
  }

  /** The elements of `s` that satisfy `p`, in their order: what the
      erase-remove idiom leaves behind. */
  function Keep(s: seq<Listener>, p: Listener -> bool): (r: seq<Listener>)
    ensures forall x :: x in r <==> x in s && p(x)
    ensures IsSubsequence(r, s)
  {
    if s == [] then []
    else
      var init, last := s[..|s| - 1], s[|s| - 1];
      assert s == init + [last];
      var kept := Keep(init, p);
      if p(last) then
        assert (kept + [last])[..|kept|] == kept;
        kept + [last]
      else
        assert kept != [] ==> kept[|kept| - 1] in kept && kept[|kept| - 1] != last;
        kept
  }

  lemma {:induction false} KeepAgree(s: seq<Listener>, p: Listener -> bool, q: Listener -> bool)
    requires forall x :: x in s ==> p(x) == q(x)
    ensures Keep(s, p) == Keep(s, q)
  {
    if s != [] {
      KeepAgree(s[..|s| - 1], p, q);
    }
  }

  lemma {:induction false} KeepAll(s: seq<Listener>, p: Listener -> bool)
    requires forall x :: x in s ==> p(x)
    ensures Keep(s, p) == s
  {
    if s != [] {
      var init, last := s[..|s| - 1], s[|s| - 1];
      assert s == init + [last];
      assert forall x :: x in init ==> x in s;
      KeepAll(init, p);
      assert p(last);
    }
  }

  lemma {:induction false} KeepKeep(s: seq<Listener>, p: Listener -> bool, q: Listener -> bool)
    ensures Keep(Keep(s, p), q) == Keep(s, (x: Listener) => p(x) && q(x))
  {
    if s != [] {
      var init, last := s[..|s| - 1], s[|s| - 1];
      assert s == init + [last];
      KeepKeep(init, p, q);
      var k := Keep(init, p);
      if p(last) {
        assert (k + [last])[..|k|] == k;
        assert Keep(k + [last], q) == Keep(k, q) + (if q(last) then [last] else []);
      } else {
        assert Keep(s, p) == k;
      }
    }
  }

  lemma {:induction false} KeepKeepsFunctionsUnique(s: seq<Listener>, p: Listener -> bool)
    requires FunctionsUnique(s)
    ensures FunctionsUnique(Keep(s, p))
  {
    if s != [] {
      var init, last := s[..|s| - 1], s[|s| - 1];
      KeepKeepsFunctionsUnique(init, p);
      var k := Keep(init, p);
      if p(last) {
        var r := k + [last];
        forall i, j | 0 <= i < j < |r| ensures r[i].func != r[j].func {
          if j == |k| {
            assert r[i] in k;
            var m :| 0 <= m < |init| && init[m] == r[i];
            assert s[m] == r[i] && s[|s| - 1] == last;
          }
        }
      }
    }
  }

  /** `remove(l)`: every element equal to `l` erased, the others kept. */
  function Without(s: seq<Listener>, l: Listener): (r: seq<Listener>)
    ensures forall x :: x in r <==> x in s && x != l
    ensures IsSubsequence(r, s)
  {
    Keep(s, (x: Listener) => x != l)
  }

  /** The context-only form of `remove_listener`: every listener bound to
      `c` removed, the others kept in their order. */
  function WithoutContext(s: seq<Listener>, c: ContextId): (r: seq<Listener>)
    ensures forall x: Listener :: x in r <==> x in s && x.context != c
    ensures IsSubsequence(r, s)
  {
    Keep(s, (x: Listener) => x.context != c)
  }

  /** Some listener of `s` holds function `f`, whatever its context. */
  predicate HasFunction(s: seq<Listener>, f: FuncId)
  {
    exists x :: x in s && x.func == f
  }

  /** `append(c, f)`: nothing if `f` is already subscribed (in any context),
      otherwise `(c, f)` added at the end. */
  function Appended(s: seq<Listener>, c: ContextId, f: FuncId): (r: seq<Listener>)
    ensures HasFunction(r, f)
    ensures forall x :: x in s ==> x in r
    ensures forall x :: x in r && x !in s ==> x == Listener(c, f)
  {
    if HasFunction(s, f) then s
    else
      assert Listener(c, f) in s + [Listener(c, f)];
      s + [Listener(c, f)]
  }

  /** The array form of `remove_listener`: for each array element that is
      a function, the calling context's listener of that function removed. */
  function RemoveEach(s: seq<Listener>, c: ContextId, items: seq<Value>): (r: seq<Listener>)
    ensures forall x :: x in r <==> x in s && !(x.context == c && Function(x.func) in items)
  {
    if items == [] then s
    else
      var prefix, item := items[..|items| - 1], items[|items| - 1];
      assert items == prefix + [item];
      var rest := RemoveEach(s, c, prefix);
      if item.Function? then Without(rest, Listener(c, item.id)) else rest
  }

  lemma {:induction false} AppendedKeepsFunctionsUnique(s: seq<Listener>, c: ContextId, f: FuncId)
    requires FunctionsUnique(s)
    ensures FunctionsUnique(Appended(s, c, f))
  {
    if !HasFunction(s, f) {
      var r := s + [Listener(c, f)];
      forall i, j | 0 <= i < j < |r| ensures r[i].func != r[j].func {
        if j == |s| {
          assert r[i] in s;
        }
      }
    }
  }

  /** Subscribing is by function identity: once `f` is subscribed, subscribing
      it again, from any context, changes nothing. */
  lemma SubscribeIdempotent(s: seq<Listener>, c: ContextId, c': ContextId, f: FuncId)
    ensures Appended(Appended(s, c, f), c', f) == Appended(s, c, f)
    ensures HasFunction(Appended(s, c, f), f)
  {
    if !HasFunction(s, f) {
      assert Listener(c, f) in s + [Listener(c, f)];
    }
  }

  /** A new function lands at the end and every earlier listener keeps its
      place; a function already present leaves the list as it was. */
  lemma AppendedShape(s: seq<Listener>, c: ContextId, f: FuncId)
    ensures var r := Appended(s, c, f);
      && r[..|s|] == s
      && (|r| == |s| + 1 <==> forall i :: 0 <= i < |s| ==> s[i].func != f)
      && (|r| == |s| + 1 ==> r[|s|] == Listener(c, f))
      && |s| <= |r| <= |s| + 1
  {
    if HasFunction(s, f) {
      var x :| x in s && x.func == f;
      var i :| 0 <= i < |s| && s[i] == x;
    } else {
      forall i | 0 <= i < |s| ensures s[i].func != f {
        assert s[i] in s;
      }
    }
  }

  /** The single-function form of `remove_listener` finds the first listener
      equal to (c, f) and erases it; with no duplicates in the list that
      removes exactly that one element, or nothing when there is none. */
  lemma {:induction false} UnsubscribeRemovesAtMostOne(s: seq<Listener>, l: Listener)
    requires Distinct(s)
    ensures l !in s ==> Without(s, l) == s
    ensures forall k :: 0 <= k < |s| && s[k] == l ==> Without(s, l) == s[..k] + s[k + 1..]
  {
    var p := (x: Listener) => x != l;
    if l !in s {
      KeepAll(s, p);
    }
    forall k | 0 <= k < |s| && s[k] == l ensures Without(s, l) == s[..k] + s[k + 1..] {
      assert s == s[..k] + [l] + s[k + 1..];
      forall x | x in s[..k] ensures p(x) {
        var i :| 0 <= i < k && s[i] == x;
      }
      forall x | x in s[k + 1..] ensures p(x) {
        var i :| k + 1 <= i < |s| && s[i] == x;
      }
      KeepAll(s[..k], p);
      KeepAll(s[k + 1..], p);
      KeepConcat(s[..k] + [l], s[k + 1..], p);
      KeepConcat(s[..k], [l], p);
      assert Keep([l], p) == [];
    }
  }

  lemma KeepSnoc(s: seq<Listener>, x: Listener, p: Listener -> bool)
    ensures Keep(s + [x], p) == Keep(s, p) + (if p(x) then [x] else [])
  {
    assert (s + [x])[..|s|] == s;
  }

  lemma {:induction false} KeepConcat(a: seq<Listener>, b: seq<Listener>, p: Listener -> bool)
    ensures Keep(a + b, p) == Keep(a, p) + Keep(b, p)
    decreases |b|
  {
    if b == [] {
      assert a + b == a;
    } else {
      var init, last := b[..|b| - 1], b[|b| - 1];
      var front := a + init;
      var tail := if p(last) then [last] else [];
      assert Keep(a + b, p) == Keep(front, p) + tail by {
        assert a + b == front + [last];
        KeepSnoc(front, last, p);
      }
      assert Keep(front, p) == Keep(a, p) + Keep(init, p) by {
        KeepConcat(a, init, p);
      }
      assert Keep(b, p) == Keep(init, p) + tail by {
        assert b == init + [last];
        KeepSnoc(init, last, p);
      }
      assert (Keep(a, p) + Keep(init, p)) + tail == Keep(a, p) + (Keep(init, p) + tail);
    }
  }

  /** The array form of `remove_listener` leaves exactly the listeners that
      are not (calling context, function in the array), in their order. */
  lemma {:induction false} RemoveEachKeepsTheRest(s: seq<Listener>, c: ContextId, items: seq<Value>)
    ensures RemoveEach(s, c, items) == Keep(s, (x: Listener) => !(x.context == c && Function(x.func) in items))
  {
    if items == [] {
      KeepAll(s, (x: Listener) => !(x.context == c && Function(x.func) in items));
    } else {
      var prefix, item := items[..|items| - 1], items[|items| - 1];
      assert items == prefix + [item];
      RemoveEachKeepsTheRest(s, c, prefix);
      var p := (x: Listener) => !(x.context == c && Function(x.func) in prefix);
      var rest := RemoveEach(s, c, prefix);
      assert rest == Keep(s, p);
      if item.Function? {
        var l := Listener(c, item.id);
        assert RemoveEach(s, c, items) == Without(rest, l);
        var q := (x: Listener) => x != l;
        KeepKeep(s, p, q);
        KeepAgree(s, (x: Listener) => p(x) && q(x),
                  (x: Listener) => !(x.context == c && Function(x.func) in items));
      } else {
        KeepAgree(s, p, (x: Listener) => !(x.context == c && Function(x.func) in items));
      }
    }
  }
}

=== FILE: scenario.dfy ===
/** A client of the event bus: a script registers an event with one integer
    parameter, subscribes a listener that echoes its argument back, and the
    Pawn side calls the event before and after the listener unsubscribes. */
module Scenario {
  import opened Values
  import opened Listeners
  import opened Codec
  import opened Dispatch
  import opened Events

  /** A listener that returns its first argument when it is an integer, and
      throws otherwise. It makes no calls on the bus. */
  function Echo(l: Listener, args: seq<Value>): (r: Reaction)
    ensures r.edits == []
    ensures r.outcome.Returned? <==> |args| > 0 && args[0].Int?
  {
    if |args| > 0 && args[0].Int? then Reaction(Returned(args[0].n), []) else Reaction(Fault, [])
  }

  /** The name's cell holds the address 100 of the name; the next cell holds
      the address 200 of the integer argument, which is read through it. */
  const Memory := Amx(map[100 := 0x6f, 200 := 42])
  const Cells: seq<int32> := [100, 200]

  /** With these cells the signature "i" decodes to the integer 42. */
  lemma DecodesFortyTwo()
    ensures CellsConsumed("i") < |Cells|
    ensures Decode(Memory, Cells, "i") == Some([Int(42)])
  {
    assert "i"[..0] == "";
    assert CellIndex("i", 0) == 1;
    assert ThroughUint32(42) == 42;
    assert TagAt(Memory, Cells, "i", 0) == Some(Int(42));
    assert forall i :: 0 <= i < 1 ==> TagAt(Memory, Cells, "i", i).Some?;
    assert seq(1, i requires 0 <= i < 1 => TagAt(Memory, Cells, "i", i).value) == [Int(42)];
  }

  /** A lone echoing listener makes the call return the decoded 42. */
  lemma EchoReturnsArgument(l: Listener)
    ensures CellsConsumed("i") < |Cells|
    ensures Run([l], Start([l], 0), Decode(Memory, Cells, "i"), Echo).retval == 42
  {
    DecodesFortyTwo();
    assert [l][..0] == [];
    var st := Run([], Start([l], 0), Some([Int(42)]), Echo);
    assert st == Start([l], 0);
    assert l in st.live;
    assert Step(st, l, Some([Int(42)]), Echo).retval == 42;
  }

  /** A fresh registry with the event "onTest" of signature "i", to which
      script context 1 has subscribed function 7. */
  method Subscribed() returns (registry: Registry, e: Event)
    ensures fresh(registry) && fresh(e) && registry.Valid()
    ensures registry.events == map["onTest" := e]
    ensures e.paramTypes == "i" && e.listeners == [Listener(1, 7)]
  {
    registry := new Registry();
    var ok := registry.Register("onTest", "i");
    e := registry.events["onTest"];
    var subscribe := [Str("onTest"), Function(7)];
    assert SubscribesTo(subscribe, "onTest");
    registry.On(1, subscribe);
    assert e.listeners == Appended([], 1, 7);
  }

  /** Calling from Pawn returns the listener's echo of 42 while it is
      subscribed, and the initial 0 once its context has unsubscribed from
      the event with `removeListener("onTest")`. */
  method SubscribeCallUnsubscribe() returns (whileSubscribed: int32, afterwards: int32)
    ensures whileSubscribed == 42
    ensures afterwards == 0
  {
    var registry, e := Subscribed();
    EchoReturnsArgument(Listener(1, 7));
    ghost var calls;
    whileSubscribed, calls := registry.PawnCallEvent(Memory, "onTest", Cells, Echo);

    registry.RemoveListener(1, [Str("onTest")]);
    assert e.listeners == WithoutContext([Listener(1, 7)], 1);
    assert e.listeners == [];
    DecodesFortyTwo();
    afterwards, calls := registry.PawnCallEvent(Memory, "onTest", Cells, Echo);
  }
}

=== FILE: values.dfy ===
/** Values that cross the boundary between the Pawn virtual machine and the
    JavaScript engine, and the part of a Pawn machine's memory the event bus
    reads. */
module Values {

  /** A 32-bit signed integer: a Pawn cell, or what `Int32Value` yields. */
  newtype int32 = x: int | -0x8000_0000 <= x < 0x8000_0000

  datatype Option<T> = None | Some(value: T)

  /** An execution context of the JavaScript engine, compared by identity. */
  type ContextId = nat

  /** A JavaScript function object, compared by identity. */
  type FuncId = nat

  /** A JavaScript value as the event bus sees it: the arguments of the
      script-side entry points, and the arguments it builds for listeners. */
  datatype Value =
    | Empty                       // an argument slot that no decoder filled
    | Str(text: string)
    | VmString(address: int32)    // a string read from VM memory; its text is not modelled
    | Int(n: int32)
    | Num(cell: int32)            // a Pawn float, kept as its raw cell
    | IntArray(items: seq<int32>)
    | NumArray(cells: seq<int32>) // Pawn floats, kept as raw cells
    | Function(id: FuncId)
    | Array(elements: seq<Value>)
    | Other                       // any other JavaScript value

  /** Bytes per Pawn cell: consecutive array elements are this far apart. */
  const CellSize: int := 4

  /** The data segment of one Pawn machine: the addresses `amx_GetAddr`
      accepts, each with the cell stored there. */
  datatype Amx = Amx(heap: map<int, int32>)

  /** `amx_GetAddr` succeeds on `address`. */
  predicate Resolves(amx: Amx, address: int)
  {
    address in amx.heap
  }

  /** The cell at `address`, read without a check (`*get_amxaddr`, or an
      element of a resolved array); an address outside the segment reads 0. */
  function Load(amx: Amx, address: int): (r: int32)
    ensures Resolves(amx, address) ==> r == amx.heap[address]
    ensures !Resolves(amx, address) ==> r == 0
  {
    if address in amx.heap then amx.heap[address] else 0
  }
}
